=== FILE: README.md ===
# cli-todo-list in Dafny

A model of the interactive todo list of `src/main.rs`. A session keeps a
list of records in memory. Each record has a title, a description and a
completion flag. A numbered menu lets the user:

- add a record;
- view the list;
- mark a record complete or incomplete;
- edit a record;
- delete a record;
- export the list to `todos.json` or `todos.txt`;
- quit.

The text prompts (`prompt_string`) trim the line they read and check its
length in bytes; a line that trims to `0` cancels them. The position prompt
(`prompt_index`) does the same and then parses the text as a number. The
menu itself checks no length: it takes any line that trims to one of `1` to
`8` and rejects every other line, `0` included, by showing the menu again.

The model has no console. The user's input is the sequence of lines still
to be typed. Every routine returns what it computed together with the lines
it left unread:

- A prompt gives `Read(value, rest)`. It gives `EndOfInput` if the lines run
  out first.
- A menu handler and the menu loop give one of three outcomes:
  - `Returned(list, rest)`;
  - `OutOfInput`;
  - `Panicked(message)`, for the overflow that a typed index of `0`
    triggers in `index - 1`.

Modules, in dependency order:

| file | module | what it holds |
|---|---|---|
| `wrappers.dfy` | `Wrappers` | `Option`, `Result`, the `Read` and `Run` outcomes, and the facts about a prompt reading lines from the front of its input |
| `text.dfy` | `Text` | `str::trim` over the Unicode White_Space set, the UTF-8 byte length that `str::len` reports, decimal numerals, and `parse::<usize>` |
| `input.dfy` | `Input` | `prompt_string` and `prompt_index` |
| `store.dfy` | `Store` | the `Todo` record, what a valid record is, and the four in-place updates of the `Vec<Todo>` |
| `render.dfy` | `Render` | the listing line, `view_todos`, and the plain-text export |
| `handlers.dfy` | `Handlers` | `create_todo`, `add_todo`, `mark_todo`, `edit_todo`, `delete_todo` and `write_todos_to_file` |
| `menu.dfy` | `Menu` | `load_options`, the menu match, and the loop of `main` |

Three behaviours of the code that are easy to get wrong:

- **Delete confirmation.** The confirmation is a text prompt of exactly
  one byte. It asks again after a line it rejects, such as `no`, `yes` or
  an empty line. Deletion needs the accepted answer to be exactly `y`; `Y`
  does not count. Any other accepted one-byte answer, and `0`, deletes
  nothing and goes back to the position prompt. It does not return to the
  menu.
- **Index 0.** The index prompt is not protected from 0. `00` and `+0` are
  not the sentinel, and they parse to 0. Marking or deleting with that index
  panics. Editing with it returns to the menu.
- **Write errors.** A failed `write_all` of the JSON export is a panic, not
  an error returned to the caller.

## Model

| member | source | states |
|---|---|---|
| Text.Trim | src/main.rs:30 | the result is trimmed: it neither starts nor ends with white space |
| Text.TrimUnique | src/main.rs:30 | trimming white space from around a trimmed core gives back exactly that core |
| Text.TrimIdempotent | src/main.rs:30 | trimming twice is trimming once |
| Text.ByteLen | src/main.rs:41-46 | the length `len()` compares is between the number of characters and four times that number |
| Text.AsciiByteLen | src/main.rs:41-46 | for ASCII text the byte length is the number of characters |
| Text.Decimal | src/main.rs:99-100 | the numeral printed for a position is non-empty, all digits, and has no leading zero |
| Text.DecimalRoundTrip | src/main.rs:62 | reading the digits of a printed numeral gives back the number |
| Text.ParseUsize | src/main.rs:62 | `parse::<usize>` accepts only digits, optionally after one `+`; an all-digit text within `usize::MAX` gives its decimal value; no result exceeds `usize::MAX` |
| Text.ParseDecimal | src/main.rs:62 | `parse::<usize>` of a printed numeral, with or without a leading `+`, gives the number |
| Text.ParseShort | src/main.rs:57-62 | a text of at most two bytes parses to at most 99 |
| Input.Screen | src/main.rs:30-51 | a line cancels exactly when it trims to "0", and is accepted exactly when the trimmed text is non-empty, not "0", and within the byte bounds; the accepted value is that trimmed text |
| Input.PromptString | src/main.rs:21-53 | the prompt reads at least one line, from the front of the input, and hands back the rest unread |
| Input.PromptStringAnswer | src/main.rs:21-53 | the text returned is acceptable and is the trimmed last line read; no value means that line was "0" |
| Input.PromptStringSkips | src/main.rs:36-49 | every line read before the answer was rejected, and input runs out only if every line was rejected |
| Input.PromptIndex | src/main.rs:55-66 | an index returned is at most the bound |
| Input.PromptIndexAnswer | src/main.rs:55-66 | an index returned is at most 99 and is what the last line read parses to; no value means that line was "0" |
| Input.PromptIndexCancels | src/main.rs:55-59 | a line that trims to "0" cancels the index prompt at once, leaving the lines after it unread |
| Input.PromptIndexRetries | src/main.rs:55-66 | a line that is not "0" and that the string prompt rejects, or that does not parse to an index within the bound, is skipped and the prompt reads on from the next line |
| Input.PromptIndexReads | src/main.rs:55-66 | a line holding a position from 1 to 99 within the bound is read as that position, in one line |
| Input.DoubleZeroIsIndexZero | src/main.rs:57-63 | "00" passes the prompt and is read as index 0 |
| Store.Push | src/main.rs:134 | pushing keeps every earlier record and puts the new one last |
| Store.SetCompleted | src/main.rs:182 | setting the flag changes only that record's flag |
| Store.Overwrite | src/main.rs:229-230 | editing changes only that record's title and description, and keeps its flag |
| Store.RemoveAt | src/main.rs:277 | removing keeps the records before the position, and moves those after it down one place |
| Store.RemoveAtUndo | src/main.rs:277 | putting the removed record back at its position restores the list |
| Store.OverwriteUndo | src/main.rs:229-230 | overwriting with the old title and description restores the list |
| Store.SetCompletedKeepsValid | src/main.rs:182 | setting a flag keeps every record valid |
| Store.OverwriteKeepsValid | src/main.rs:229-230 | writing a valid title and description keeps every record valid |
| Store.RemoveAtKeepsValid | src/main.rs:277 | removing a record keeps every record valid |
| Render.RenderLine | src/main.rs:145-152 | a listing line ends with " [x]" for a completed record and " [ ]" otherwise, and between the `n. ` prefix and that flag holds exactly the title, " - " and the description |
| Render.RenderLineReadBack | src/main.rs:145-152 | a listing line gives back its position and its flag, whatever the title and description contain |
| Render.ViewTodos | src/main.rs:139-154 | an empty list prints only "No todos found."; otherwise one line per record, none of them that notice |
| Render.ViewPositions | src/main.rs:139-154 | a non-empty list is shown as one line per record, in order; line i shows position i+1 and that record's flag |
| Render.TextFile | src/main.rs:96-105 | the text export is empty exactly when the list is |
| Render.TextFileMatchesView | src/main.rs:90-107 | for a non-empty list the text export holds exactly the lines the view prints, each ended by a newline |
| Render.TextFileExample | src/main.rs:96-105 | the completed record "Buy milk" / "2%" is written as "1. Buy milk - 2% [x]" and a newline |
| Handlers.CreateTodo | src/main.rs:113-130 | a created record is not completed |
| Handlers.CreateTodoResult | src/main.rs:113-130 | a created record is valid and not completed; its description is empty exactly when the description prompt was cancelled; creation fails only with "Cancelled", when the title prompt was cancelled |
| Handlers.CreateWithCancelledDescription | src/main.rs:122-129 | a cancelled description gives the record an empty description |
| Handlers.CreateTodoReads | src/main.rs:113-130 | an accepted title and an accepted description make a record of them |
| Handlers.AddTodo | src/main.rs:132-137 | adding never panics |
| Handlers.AddTodoResult | src/main.rs:132-137 | adding either leaves the list unchanged after the title prompt was cancelled, or appends one valid record that is not completed |
| Handlers.AddCancelled | src/main.rs:117-119 | typing "0" as the title adds nothing |
| Handlers.AddThenView | src/main.rs:132-154 | after adding to an empty list, the view shows position 1, not completed |
| Handlers.AddKeepsValid | src/main.rs:132-137 | adding keeps every record valid |
| Handlers.MarkTodo | src/main.rs:156-188 | on an empty list nothing is read and nothing changes; the only panic is the index-0 overflow |
| Handlers.MarkLoop | src/main.rs:162-187 | each round reads at least one line; the only panic is the index-0 overflow |
| Handlers.MarkLoopResult | src/main.rs:162-187 | the loop either is cancelled and changes nothing, or switches exactly the flag of the record at the position typed last |
| Handlers.MarkTodoResult | src/main.rs:156-188 | marking either is cancelled and changes nothing, or switches the flag of the typed record from the other state; every other record and field stays as it was |
| Handlers.MarkStep | src/main.rs:156-188 | whatever lines led there: a cancelled position returns with the list as it is; position 0 panics on `index - 1`; a record already in the requested state makes it ask again on the following lines; any other record gets the requested flag |
| Handlers.MarkAlreadyInState | src/main.rs:170-180 | choosing a record already in the requested state writes nothing and asks again |
| Handlers.MarkSets | src/main.rs:170-186 | choosing a record in the other state sets its flag and returns |
| Handlers.MarkIndexZeroPanics | src/main.rs:165-170 | "00" at the position prompt panics |
| Handlers.MarkKeepsValid | src/main.rs:156-188 | marking keeps every record valid |
| Handlers.EditTodo | src/main.rs:208-245 | on an empty list nothing is read and nothing changes; editing never panics |
| Handlers.EditLoop | src/main.rs:214-244 | each round reads at least one line, and the loop never panics |
| Handlers.EditLoopResult | src/main.rs:214-244 | the loop either changes nothing or gives one record a new valid title and description |
| Handlers.EditTodoResult | src/main.rs:208-245 | editing either changes nothing or gives one record a new valid title and description, keeping its flag and place (`EditAtPosition` names that record) |
| Handlers.EditAtPosition | src/main.rs:214-234 | whatever lines led there, once a position is read and `create_todo` gives a record, the edit gives that record's title and description to the record at that position and changes nothing else |
| Handlers.EditAbandoned | src/main.rs:227-237 | once a position is read, a cancelled `create_todo` ends the edit with the list unchanged |
| Handlers.CreateTodoFailsOnlyByCancel | src/main.rs:113-130 | `create_todo` fails with no error other than "Cancelled", so the retry branch of `edit_todo` is never taken |
| Handlers.PositionCancelled | src/main.rs:165-168 | a cancelled position prompt ends a mark, an edit or a delete with the list unchanged (also lines 217-223 and 256-262) |
| Handlers.EditCancelled | src/main.rs:217-237 | a position followed by "0" at the title prompt leaves the list unchanged |
| Handlers.EditOverwrites | src/main.rs:217-233 | a position followed by a new title and description overwrites that record's text and nothing else |
| Handlers.EditIndexZeroReturns | src/main.rs:225-226 | "00" at the position prompt returns with nothing changed |
| Handlers.EditKeepsValid | src/main.rs:208-245 | editing keeps every record valid |
| Handlers.DeleteTodo | src/main.rs:247-285 | on an empty list nothing is read and nothing changes; the only panic is the index-0 overflow |
| Handlers.DeleteLoop | src/main.rs:253-284 | each round reads at least one line; the only panic is the index-0 overflow |
| Handlers.DeleteLoopResult | src/main.rs:253-284 | the loop either is cancelled at the position prompt and changes nothing, or ends on "y" and removes one record |
| Handlers.DeleteTodoResult | src/main.rs:247-285 | deleting either is cancelled and changes nothing, or ends on "y" and removes one record, the later ones moving down (`DeleteStep` names that record) |
| Handlers.DeleteStep | src/main.rs:253-284 | whatever lines led there, position 0 panics on `index - 1` once the confirmation is read; after a position from 1 up, "y" removes the record at that position; any other answer the confirmation prompt returns, "0" included, starts over on the lines after it; a cancelled position changes nothing |
| Handlers.DeleteConfirmed | src/main.rs:264-280 | a position followed by "y" removes that record |
| Handlers.DeleteRetries | src/main.rs:264-283 | a position followed by any other one-byte answer the confirmation prompt accepts, or by "0", deletes nothing and starts over, as if neither line had been typed |
| Handlers.DeleteIndexZeroPanics | src/main.rs:256-267 | "00" at the position prompt panics once the confirmation has been read |
| Handlers.DeleteKeepsValid | src/main.rs:247-285 | deleting keeps every record valid |
| Handlers.SelectFormat | src/main.rs:78-108 | "1" selects JSON, "2" selects plain text, and anything else selects nothing |
| Handlers.WriteTodosToFile | src/main.rs:69-111 | the export reads at least one line |
| Handlers.WriteTodosToFileResult | src/main.rs:69-111 | "0" and an unknown format are errors, and so is a file that cannot be created; "1" writes the records as JSON to todos.json; "2" writes the view's lines to todos.txt |
| Handlers.ExportExample | src/main.rs:90-106 | exporting "Buy milk" / "2%" as plain text writes its single line to todos.txt |
| Menu.LoadOptions | src/main.rs:8-18 | the menu has eight entries, entry i shown with the number i + 1 |
| Menu.ParseChoice | src/main.rs:347-360 | a recognised line trims to the number of the choice it selects; a rejected line trims to no menu number |
| Menu.MenuNumbering | src/main.rs:8-18 | a line selects a choice exactly when it trims to the number that choice is listed with in `load_options` |
| Menu.MenuDistinct | src/main.rs:8-18 | every menu entry is a different action |
| Menu.Dispatch | src/main.rs:365-380 | viewing, exporting and quitting leave the list unchanged; only marking and deleting can panic, and only with the index-0 overflow |
| Menu.DispatchKeepsValid | src/main.rs:365-380 | every action keeps the records valid |
| Menu.ChoiceRuns | src/main.rs:347-380 | a recognised choice other than Quit runs its action, and the loop goes on from what that action leaves |
| Menu.MainLoop | src/main.rs:331-381 | the loop reads at least one line before it returns; the only panic is the index-0 overflow |
| Menu.MainLoopResult | src/main.rs:331-381 | the loop ends normally only on Quit, and it keeps every record valid |
| Menu.InvalidChoiceSkipped | src/main.rs:347-359 | a line that is not a menu number is skipped |
| Menu.QuitEnds | src/main.rs:376-379 | "8" ends the loop at once with the list as it is |
| Menu.SessionKeepsValid | src/main.rs:325-382 | every list a whole session ends with holds only valid records |
| Menu.SessionExample | src/main.rs:325-382 | the input "1", "Buy milk", "2%", "3", "1", "8" ends the session with the single completed record "Buy milk" / "2%" |

## Left out

- Console output is not modelled. This covers the prompts, the diagnostics,
  the menu text and the "Goodbye!" message. The `Display` labels of
  `Choice` are left out too. The loop returns what it changed and what it
  read, not what it printed.
- A failing `read_line` is not modelled. The program would panic with
  "Failed to read line".
- At end of input a real terminal returns empty lines. Every prompt rejects
  these, so the program would loop for ever. The model returns
  `EndOfInput` / `OutOfInput` instead.
- The JSON text is not modelled. `serde_json::to_string_pretty` is library
  code; the export holds the records it would serialise (`JsonOf`).
- File system effects are left out. File creation is a parameter: the error
  `File::create` would report for each of the two paths. The panics of
  `write_all(..).unwrap()` are not modelled. The ignored results of
  `writeln!` are not modelled either.
- Menu.Dispatch: a successful export's file contents are not passed on to
  the menu loop. `Handlers.WriteTodosToFileResult` states what is written.
- The `FileFormat` enum is never used by the program and is not modelled.
- `usize` is taken to be 64 bits wide. This only affects the parse bound,
  since an index prompt accepts at most two bytes.
- A typed index of 0 is modelled as the debug-build panic "attempt to
  subtract with overflow". A release build would wrap, then panic on the
  out-of-bounds index instead.

=== FILE: handlers.dfy ===
/** The menu handlers of `src/main.rs`, one loop at a time: each takes the
    current list and the input lines and gives the list it leaves behind
    together with the lines it did not read. */
module Handlers {
  import opened Wrappers
  import opened Text
  import opened Input
  import opened Store
  import opened Render

  /** The only error `create_todo` reports. */
  const CANCELLED: string := "Cancelled"

  /** The panic `index - 1` raises on a `usize` index of 0 (a release build
      wraps instead and then panics on the out-of-bounds access). */
  const SUBTRACT_OVERFLOW: string := "attempt to subtract with overflow"

  /** The only confirmation `delete_todo` takes as a yes. */
  const YES: string := "y"

  // ---------------------------------------------------------------------------
  // create_todo / add_todo
  // ---------------------------------------------------------------------------

  /** `create_todo`: a title of 1..50 bytes (the sentinel cancels the whole
      record), then a description of up to 250 bytes (the sentinel leaves it
      empty). `CreateTodoResult` states what it returns. */
  function CreateTodo(lines: seq<string>): (r: Read<Result<Todo>>)
    ensures r.Read? ==> Suffix(r.rest, lines) && |r.rest| < |lines|
    ensures r.Read? && r.value.Ok? ==> !r.value.value.completed
  {
    var title := PromptString(lines, 1, TITLE_MAX);
    if title.EndOfInput? then EndOfInput
    else if title.value.None? then Read(Err(CANCELLED), title.rest)
    else
      var description := PromptString(title.rest, 0, DESCRIPTION_MAX);
      if description.EndOfInput? then EndOfInput
      else
        SuffixTrans(lines, title.rest, description.rest);
        Read(Ok(Todo(title.value.value, description.value.GetOr(""), false)), description.rest)
  }

  /** A created record is valid and not completed, and its description is
      empty exactly when the last line read was the sentinel (an empty line is
      rejected, not taken as an empty description). Creation fails only when
      the title prompt is cancelled, and then with "Cancelled". */
  lemma CreateTodoResult(lines: seq<string>)
    ensures var r := CreateTodo(lines);
            && (r.Read? && r.value.Ok? ==>
                  && ValidTodo(r.value.value) && !r.value.value.completed
                  && (r.value.value.description == [] <==> Trim(LastRead(lines, r.rest)) == CANCEL))
            && (r.Read? && r.value.Err? ==>
                  r.value.error == CANCELLED && Trim(LastRead(lines, r.rest)) == CANCEL)
  {
    PromptStringAnswer(lines, 1, TITLE_MAX);
    var title := PromptString(lines, 1, TITLE_MAX);
    if title.Read? && title.value.Some? {
      PromptStringAnswer(title.rest, 0, DESCRIPTION_MAX);
      var description := PromptString(title.rest, 0, DESCRIPTION_MAX);
      if description.Read? {
        SuffixTrans(lines, title.rest, description.rest);
      }
    }
  }

  /** An accepted title followed by the sentinel gives a record with an empty
      description that is not completed. */
  lemma CreateWithCancelledDescription(titleLine: string, descriptionLine: string, more: seq<string>)
    requires Screen(titleLine, 1, TITLE_MAX).Accept?
    requires Trim(descriptionLine) == CANCEL
    ensures CreateTodo([titleLine, descriptionLine] + more)
            == Read(Ok(Todo(Trim(titleLine), "", false)), more)
  {
    var lines := [titleLine, descriptionLine] + more;
    var rest := [descriptionLine] + more;
    assert lines[0] == titleLine && lines[1..] == rest;
    assert PromptString(lines, 1, TITLE_MAX) == Read(Some(Trim(titleLine)), rest);
    assert rest[0] == descriptionLine && rest[1..] == more;
    assert PromptString(rest, 0, DESCRIPTION_MAX) == Read(None, more);
  }

  /** `add_todo`: push the created record, or leave the list as it is when
      creation is cancelled. `AddTodoResult` states what it returns. */
  function AddTodo(todos: seq<Todo>, lines: seq<string>): (r: Run<seq<Todo>>)
    ensures !r.Panicked?
    ensures r.Returned? ==> Suffix(r.rest, lines) && |r.rest| < |lines|
  {
    var created := CreateTodo(lines);
    if created.EndOfInput? then OutOfInput
    else if created.value.Ok? then Returned(Push(todos, created.value.value), created.rest)
    else Returned(todos, created.rest)
  }

  /** Adding either leaves the list unchanged, when the title prompt was
      cancelled, or appends one valid record that is not completed. */
  lemma AddTodoResult(todos: seq<Todo>, lines: seq<string>)
    ensures var r := AddTodo(todos, lines);
            r.Returned? ==>
              || (r.value == todos && Trim(LastRead(lines, r.rest)) == CANCEL)
              || (&& |r.value| == |todos| + 1 && r.value[..|todos|] == todos
                  && ValidTodo(r.value[|todos|]) && !r.value[|todos|].completed)
  {
    CreateTodoResult(lines);
  }

  /** Cancelling at the title prompt adds nothing. */
  lemma AddCancelled(todos: seq<Todo>, line: string, more: seq<string>)
    requires Trim(line) == CANCEL
    ensures AddTodo(todos, [line] + more) == Returned(todos, more)
  {
    var lines := [line] + more;
    assert lines[0] == line && lines[1..] == more;
    assert PromptString(lines, 1, TITLE_MAX) == Read(None, more);
  }

  /** Adding to an empty list and then viewing shows one line, for position 1,
      not completed. */
  lemma AddThenView(lines: seq<string>)
    ensures var r := AddTodo([], lines);
            r.Returned? && r.value != [] ==>
              && ViewTodos(r.value) == [RenderLine(1, r.value[0])]
              && ReadPosition(ViewTodos(r.value)[0]) == Some(1)
              && ReadCheckbox(ViewTodos(r.value)[0]) == Some(false)
  {
    var r := AddTodo([], lines);
    if r.Returned? && r.value != [] {
      assert |r.value| == 1;
      assert ViewTodos(r.value) == [RenderLine(1, r.value[0])];
      RenderLineReadBack(1, r.value[0]);
    }
  }

  lemma AddKeepsValid(todos: seq<Todo>, lines: seq<string>)
    requires ValidStore(todos)
    ensures AddTodo(todos, lines).Returned? ==> ValidStore(AddTodo(todos, lines).value)
  {
    AddTodoResult(todos, lines);
    var r := AddTodo(todos, lines);
    if r.Returned? && r.value != todos {
      forall j | 0 <= j < |r.value|
        ensures ValidTodo(r.value[j])
      {
        if j < |todos| {
          assert r.value[j] == r.value[..|todos|][j];
        }
      }
    }
  }

  // ---------------------------------------------------------------------------
  // mark_todo
  // ---------------------------------------------------------------------------

  /** The loop of `mark_todo`: ask for a position; a record already in the
      requested state makes it ask again; otherwise set the flag and return. */
  function MarkLoop(todos: seq<Todo>, isComplete: bool, lines: seq<string>): (r: Run<seq<Todo>>)
    ensures r.Returned? ==> Suffix(r.rest, lines) && |r.rest| < |lines|
    ensures r.Panicked? ==> r.message == SUBTRACT_OVERFLOW
    decreases |lines|
  {
    var index := PromptIndex(lines, |todos|);
    if index.EndOfInput? then OutOfInput
    else if index.value.None? then Returned(todos, index.rest)
    else if index.value.value == 0 then Panicked(SUBTRACT_OVERFLOW)
    else
      var k := index.value.value - 1;
      if todos[k].completed == isComplete then
        var r := MarkLoop(todos, isComplete, index.rest);
        if r.Returned? then SuffixTrans(lines, index.rest, r.rest); r else r
      else Returned(SetCompleted(todos, k, isComplete), index.rest)
  }

  /** `after` is `before` with the record at the position `typed` switched
      from the other state to `isComplete`. */
  predicate MarkedAt(before: seq<Todo>, after: seq<Todo>, isComplete: bool, typed: string) {
    var index := ParseUsize(typed);
    && index.Some? && 1 <= index.value <= |before|
    && before[index.value - 1].completed != isComplete
    && after == SetCompleted(before, index.value - 1, isComplete)
  }

  lemma {:induction false} MarkLoopResult(todos: seq<Todo>, isComplete: bool, lines: seq<string>)
    ensures var r := MarkLoop(todos, isComplete, lines);
            r.Returned? ==>
              || (r.value == todos && Trim(LastRead(lines, r.rest)) == CANCEL)
              || MarkedAt(todos, r.value, isComplete, Trim(LastRead(lines, r.rest)))
    decreases |lines|
  {
    PromptIndexAnswer(lines, |todos|);
    var index := PromptIndex(lines, |todos|);
    if index.Read? && index.value.Some? && index.value.value != 0 {
      var k := index.value.value - 1;
      if todos[k].completed == isComplete {
        MarkLoopResult(todos, isComplete, index.rest);
        var r := MarkLoop(todos, isComplete, index.rest);
        if r.Returned? {
          SuffixTrans(lines, index.rest, r.rest);
        }
      } else {
        MarkedAtTyped(todos, isComplete, lines, index.rest, k);
      }
    }
  }

  lemma MarkedAtTyped(todos: seq<Todo>, isComplete: bool, lines: seq<string>, rest: seq<string>, k: nat)
    requires Suffix(rest, lines) && |rest| < |lines|
    requires k < |todos| && todos[k].completed != isComplete
    requires ParseUsize(Trim(LastRead(lines, rest))) == Some(k + 1)
    ensures MarkedAt(todos, SetCompleted(todos, k, isComplete), isComplete, Trim(LastRead(lines, rest)))
  {
  }

  /** One round of `mark_todo`, whatever lines led there: a cancelled
      position returns with the list as it is; position 0 panics on
      `index - 1`; a record already in the requested state makes it ask again
      on the following lines; any other record gets the requested flag. */
  lemma MarkStep(todos: seq<Todo>, isComplete: bool, lines: seq<string>)
    requires todos != []
    ensures var index := PromptIndex(lines, |todos|);
            && (index.Read? && index.value.None? ==> MarkTodo(todos, isComplete, lines) == Returned(todos, index.rest))
            && (index.Read? && index.value == Some(0) ==> MarkTodo(todos, isComplete, lines) == Panicked(SUBTRACT_OVERFLOW))
            && (index.Read? && index.value.Some? && index.value.value >= 1 ==>
                  && index.value.value <= |todos|
                  && (todos[index.value.value - 1].completed == isComplete ==>
                        MarkTodo(todos, isComplete, lines) == MarkTodo(todos, isComplete, index.rest))
                  && (todos[index.value.value - 1].completed != isComplete ==>
                        MarkTodo(todos, isComplete, lines)
                        == Returned(SetCompleted(todos, index.value.value - 1, isComplete), index.rest)))
  {
  }

  /** `mark_todo(todos, isComplete, ..)`: nothing is read from an empty list.
      `MarkTodoResult` states what it returns. */
  function MarkTodo(todos: seq<Todo>, isComplete: bool, lines: seq<string>): (r: Run<seq<Todo>>)
    ensures todos == [] ==> r == Returned(todos, lines)
    ensures r.Returned? ==> Suffix(r.rest, lines)
    ensures todos != [] && r.Returned? ==> |r.rest| < |lines|
    ensures r.Panicked? ==> r.message == SUBTRACT_OVERFLOW
  {
    if todos == [] then Returned(todos, lines) else MarkLoop(todos, isComplete, lines)
  }

  /** Marking either is cancelled and changes nothing, or changes exactly the
      flag of the record at the position typed last, from the other state to
      `isComplete`; the length, every other record and that record's title
      and description stay as they were. */
  lemma MarkTodoResult(todos: seq<Todo>, isComplete: bool, lines: seq<string>)
    ensures var r := MarkTodo(todos, isComplete, lines);
            todos != [] && r.Returned? ==>
              || (r.value == todos && Trim(LastRead(lines, r.rest)) == CANCEL)
              || MarkedAt(todos, r.value, isComplete, Trim(LastRead(lines, r.rest)))
  {
    MarkLoopResult(todos, isComplete, lines);
  }

  /** Choosing a record already in the requested state writes nothing and
      asks again, as if that line had not been typed. */
  lemma MarkAlreadyInState(todos: seq<Todo>, isComplete: bool, i: nat, line: string, more: seq<string>)
    requires 1 <= i <= |todos| && i <= 99
    requires Trim(line) == Decimal(i)
    requires todos[i - 1].completed == isComplete
    ensures MarkTodo(todos, isComplete, [line] + more) == MarkTodo(todos, isComplete, more)
  {
    PromptIndexReads(line, more, i, |todos|);
  }

  /** Choosing a record in the other state sets its flag and returns. */
  lemma MarkSets(todos: seq<Todo>, isComplete: bool, i: nat, line: string, more: seq<string>)
    requires 1 <= i <= |todos| && i <= 99
    requires Trim(line) == Decimal(i)
    requires todos[i - 1].completed != isComplete
    ensures MarkTodo(todos, isComplete, [line] + more) == Returned(SetCompleted(todos, i - 1, isComplete), more)
  {
    PromptIndexReads(line, more, i, |todos|);
  }

  /** "00" at the position prompt crashes the program. */
  lemma MarkIndexZeroPanics(todos: seq<Todo>, isComplete: bool, more: seq<string>)
    requires todos != []
    ensures MarkTodo(todos, isComplete, ["00"] + more) == Panicked(SUBTRACT_OVERFLOW)
  {
    DoubleZeroIsIndexZero(more, |todos|);
  }

  lemma MarkKeepsValid(todos: seq<Todo>, isComplete: bool, lines: seq<string>)
    requires ValidStore(todos)
    ensures MarkTodo(todos, isComplete, lines).Returned? ==> ValidStore(MarkTodo(todos, isComplete, lines).value)
  {
    MarkTodoResult(todos, isComplete, lines);
    var r := MarkTodo(todos, isComplete, lines);
    if r.Returned? && r.value != todos {
      var typed := ParseUsize(Trim(LastRead(lines, r.rest)));
      SetCompletedKeepsValid(todos, typed.value - 1, isComplete);
    }
  }

  // ---------------------------------------------------------------------------
  // edit_todo
  // ---------------------------------------------------------------------------

  /** The loop of `edit_todo`. Index 0 returns; a record created afresh gives
      its title and description to the chosen record. `create_todo` only ever
      fails with "Cancelled", so the branch that asks again is never taken. */
  function EditLoop(todos: seq<Todo>, lines: seq<string>): (r: Run<seq<Todo>>)
    ensures !r.Panicked?
    ensures r.Returned? ==> Suffix(r.rest, lines) && |r.rest| < |lines|
    decreases |lines|
  {
    var index := PromptIndex(lines, |todos|);
    if index.EndOfInput? then OutOfInput
    else if index.value.None? then Returned(todos, index.rest)
    else if index.value.value == 0 then Returned(todos, index.rest)
    else
      var k := index.value.value - 1;
      var created := CreateTodo(index.rest);
      if created.EndOfInput? then OutOfInput
      else
        SuffixTrans(lines, index.rest, created.rest);
        if created.value.Ok? then
          var t := created.value.value;
          Returned(Overwrite(todos, k, t.title, t.description), created.rest)
        else if created.value.error == CANCELLED then Returned(todos, created.rest)
        else
          var r := EditLoop(todos, created.rest);
          if r.Returned? then SuffixTrans(lines, created.rest, r.rest); r else r
  }

  /** `after` is `before` with one record given a new valid title and
      description. */
  ghost predicate EditedOne(before: seq<Todo>, after: seq<Todo>) {
    exists k: nat, t: Todo :: k < |before| && ValidTodo(t) && after == Overwrite(before, k, t.title, t.description)
  }

  lemma {:induction false} EditLoopResult(todos: seq<Todo>, lines: seq<string>)
    ensures var r := EditLoop(todos, lines);
            r.Returned? ==> r.value == todos || EditedOne(todos, r.value)
    decreases |lines|
  {
    var index := PromptIndex(lines, |todos|);
    var r := EditLoop(todos, lines);
    if index.Read? && index.value.Some? && index.value.value != 0 {
      var k := index.value.value - 1;
      var created := CreateTodo(index.rest);
      if created.Read? {
        if created.value.Ok? {
          CreateTodoResult(index.rest);
          var t := created.value.value;
          assert r == Returned(Overwrite(todos, k, t.title, t.description), created.rest);
          assert k < |todos| && ValidTodo(t);
          assert EditedOne(todos, r.value);
        } else if created.value.error != CANCELLED {
          EditLoopResult(todos, created.rest);
          assert r == EditLoop(todos, created.rest);
        }
      }
    }
  }

  /** `edit_todo`: nothing is read from an empty list. `EditTodoResult`
      states what it returns. */
  function EditTodo(todos: seq<Todo>, lines: seq<string>): (r: Run<seq<Todo>>)
    ensures todos == [] ==> r == Returned(todos, lines)
    ensures !r.Panicked?
    ensures r.Returned? ==> Suffix(r.rest, lines)
  {
    if todos == [] then Returned(todos, lines) else EditLoop(todos, lines)
  }

  /** Editing either changes nothing or gives one record a new valid title
      and description; that record keeps its flag and its place, and the
      length and every other record stay as they were. */
  lemma EditTodoResult(todos: seq<Todo>, lines: seq<string>)
    ensures var r := EditTodo(todos, lines);
            r.Returned? ==> r.value == todos || EditedOne(todos, r.value)
  {
    if todos != [] {
      EditLoopResult(todos, lines);
    }
  }

  /** An accepted title and an accepted description make a record of them. */
  lemma CreateTodoReads(titleLine: string, descriptionLine: string, more: seq<string>)
    requires Screen(titleLine, 1, TITLE_MAX).Accept?
    requires Screen(descriptionLine, 0, DESCRIPTION_MAX).Accept?
    ensures CreateTodo([titleLine, descriptionLine] + more)
            == Read(Ok(Todo(Trim(titleLine), Trim(descriptionLine), false)), more)
  {
    var lines := [titleLine, descriptionLine] + more;
    var rest := [descriptionLine] + more;
    assert lines[0] == titleLine && lines[1..] == rest;
    assert PromptString(lines, 1, TITLE_MAX) == Read(Some(Trim(titleLine)), rest);
    assert rest[0] == descriptionLine && rest[1..] == more;
    assert PromptString(rest, 0, DESCRIPTION_MAX) == Read(Some(Trim(descriptionLine)), more);
  }

  /** Choosing a position and typing a new title and description overwrites
      that record's text and nothing else. */
  lemma EditOverwrites(todos: seq<Todo>, i: nat, line: string, titleLine: string, descriptionLine: string,
                       more: seq<string>)
    requires 1 <= i <= |todos| && i <= 99
    requires Trim(line) == Decimal(i)
    requires Screen(titleLine, 1, TITLE_MAX).Accept?
    requires Screen(descriptionLine, 0, DESCRIPTION_MAX).Accept?
    ensures EditTodo(todos, [line, titleLine, descriptionLine] + more)
            == Returned(Overwrite(todos, i - 1, Trim(titleLine), Trim(descriptionLine)), more)
  {
    var rest := [titleLine, descriptionLine] + more;
    assert [line, titleLine, descriptionLine] + more == [line] + rest;
    PromptIndexReads(line, rest, i, |todos|);
    CreateTodoReads(titleLine, descriptionLine, more);
  }

  /** Whatever lines led there: once `prompt_index` has read a position and
      `create_todo` a record, the edit gives that record's title and
      description to the record at that position, and to no other. */
  lemma EditAtPosition(todos: seq<Todo>, lines: seq<string>)
    requires todos != []
    ensures var index := PromptIndex(lines, |todos|);
            index.Read? && index.value.Some? && index.value.value >= 1 ==>
              var created := CreateTodo(index.rest);
              created.Read? && created.value.Ok? ==>
                && index.value.value <= |todos|
                && EditTodo(todos, lines).Returned?
                && EditTodo(todos, lines).rest == created.rest
                && EditTodo(todos, lines).value
                   == Overwrite(todos, index.value.value - 1, created.value.value.title, created.value.value.description)
  {
    match PromptIndex(lines, |todos|)
    case Read(Some(i), mid) =>
      if i >= 1 {
        match CreateTodo(mid)
        case Read(Ok(t), rest) => EditRound(todos, lines, i, mid, t, rest);
        case _ =>
      }
    case _ =>
  }

  /** One edit round with the position `i` and the record `t` read. */
  lemma EditRound(todos: seq<Todo>, lines: seq<string>, i: nat, mid: seq<string>, t: Todo, rest: seq<string>)
    requires PromptIndex(lines, |todos|) == Read(Some(i), mid) && 1 <= i
    requires CreateTodo(mid) == Read(Ok(t), rest)
    ensures i <= |todos|
    ensures EditTodo(todos, lines).Returned? && EditTodo(todos, lines).rest == rest
    ensures EditTodo(todos, lines).value == Overwrite(todos, i - 1, t.title, t.description)
  {
    var r := EditLoop(todos, lines);
    assert r.Returned? && r.rest == rest;
    assert r.value == Overwrite(todos, i - 1, t.title, t.description);
    assert EditTodo(todos, lines) == r;
  }

  /** Once a position is read, a cancelled `create_todo` ends the edit with
      the list as it is. */
  lemma EditAbandoned(todos: seq<Todo>, lines: seq<string>, i: nat, mid: seq<string>, e: string, rest: seq<string>)
    requires todos != []
    requires PromptIndex(lines, |todos|) == Read(Some(i), mid) && 1 <= i
    requires CreateTodo(mid) == Read(Err(e), rest)
    ensures EditTodo(todos, lines) == Returned(todos, rest)
  {
    CreateTodoFailsOnlyByCancel(mid);
    assert EditTodo(todos, lines) == EditLoop(todos, lines);
  }

  /** A cancelled position ends a mark, an edit or a delete with the list as
      it is. */
  lemma PositionCancelled(todos: seq<Todo>, isComplete: bool, lines: seq<string>, rest: seq<string>)
    requires todos != []
    requires PromptIndex(lines, |todos|) == Read(None, rest)
    ensures MarkTodo(todos, isComplete, lines) == Returned(todos, rest)
    ensures EditTodo(todos, lines) == Returned(todos, rest)
    ensures DeleteTodo(todos, lines) == Returned(todos, rest)
  {
  }

  /** `create_todo` reports no error other than "Cancelled". */
  lemma CreateTodoFailsOnlyByCancel(lines: seq<string>)
    ensures CreateTodo(lines).Read? && CreateTodo(lines).value.Err? ==> CreateTodo(lines).value.error == CANCELLED
  {
  }

  /** A position followed by "0" at the title prompt leaves the list as it is. */
  lemma EditCancelled(todos: seq<Todo>, i: nat, line: string, titleLine: string, more: seq<string>)
    requires 1 <= i <= |todos| && i <= 99
    requires Trim(line) == Decimal(i)
    requires Trim(titleLine) == CANCEL
    ensures EditTodo(todos, [line, titleLine] + more) == Returned(todos, more)
  {
    var rest := [titleLine] + more;
    assert [line, titleLine] + more == [line] + rest;
    PromptIndexReads(line, rest, i, |todos|);
    assert rest[0] == titleLine && rest[1..] == more;
    assert PromptString(rest, 1, TITLE_MAX) == Read(None, more);
  }

  /** "00" at the position prompt of an edit returns with nothing changed. */
  lemma EditIndexZeroReturns(todos: seq<Todo>, more: seq<string>)
    requires todos != []
    ensures EditTodo(todos, ["00"] + more) == Returned(todos, more)
  {
    DoubleZeroIsIndexZero(more, |todos|);
  }

  lemma EditKeepsValid(todos: seq<Todo>, lines: seq<string>)
    requires ValidStore(todos)
    ensures EditTodo(todos, lines).Returned? ==> ValidStore(EditTodo(todos, lines).value)
  {
    EditTodoResult(todos, lines);
    var r := EditTodo(todos, lines);
    if r.Returned? && r.value != todos {
      var k: nat, t: Todo :| k < |todos| && ValidTodo(t) && r.value == Overwrite(todos, k, t.title, t.description);
      OverwriteKeepsValid(todos, k, t.title, t.description);
    }
  }

  // ---------------------------------------------------------------------------
  // delete_todo
  // ---------------------------------------------------------------------------

  /** The loop of `delete_todo`: ask for a position, then for a one-byte
      confirmation; only "y" deletes, any other answer (the sentinel
      included) asks for a position again. The confirmation is read before
      the position is used, so index 0 panics only after it. */
  function DeleteLoop(todos: seq<Todo>, lines: seq<string>): (r: Run<seq<Todo>>)
    ensures r.Returned? ==> Suffix(r.rest, lines) && |r.rest| < |lines|
    ensures r.Panicked? ==> r.message == SUBTRACT_OVERFLOW
    decreases |lines|
  {
    var index := PromptIndex(lines, |todos|);
    if index.EndOfInput? then OutOfInput
    else if index.value.None? then Returned(todos, index.rest)
    else
      var confirm := PromptString(index.rest, 1, 1);
      if confirm.EndOfInput? then OutOfInput
      else
        SuffixTrans(lines, index.rest, confirm.rest);
        if index.value.value == 0 then Panicked(SUBTRACT_OVERFLOW)
        else if confirm.value.GetOr("") == YES then
          Returned(RemoveAt(todos, index.value.value - 1), confirm.rest)
        else
          var r := DeleteLoop(todos, confirm.rest);
          if r.Returned? then SuffixTrans(lines, confirm.rest, r.rest); r else r
  }

  /** `after` is `before` with one record removed. */
  ghost predicate RemovedOne(before: seq<Todo>, after: seq<Todo>) {
    exists k: nat :: k < |before| && after == RemoveAt(before, k)
  }

  lemma {:induction false} DeleteLoopResult(todos: seq<Todo>, lines: seq<string>)
    ensures var r := DeleteLoop(todos, lines);
            r.Returned? ==>
              || (r.value == todos && Trim(LastRead(lines, r.rest)) == CANCEL)
              || (Trim(LastRead(lines, r.rest)) == YES && RemovedOne(todos, r.value))
    decreases |lines|
  {
    PromptIndexAnswer(lines, |todos|);
    var index := PromptIndex(lines, |todos|);
    if index.Read? && index.value.Some? {
      PromptStringAnswer(index.rest, 1, 1);
      var confirm := PromptString(index.rest, 1, 1);
      if confirm.Read? {
        SuffixTrans(lines, index.rest, confirm.rest);
        if index.value.value != 0 {
          if confirm.value.GetOr("") == YES {
            assert RemovedOne(todos, RemoveAt(todos, index.value.value - 1));
          } else {
            DeleteLoopResult(todos, confirm.rest);
            var r := DeleteLoop(todos, confirm.rest);
            if r.Returned? {
              SuffixTrans(lines, confirm.rest, r.rest);
            }
          }
        }
      }
    }
  }

  /** `delete_todo`: nothing is read from an empty list. `DeleteTodoResult`
      states what it returns. */
  function DeleteTodo(todos: seq<Todo>, lines: seq<string>): (r: Run<seq<Todo>>)
    ensures todos == [] ==> r == Returned(todos, lines)
    ensures r.Returned? ==> Suffix(r.rest, lines)
    ensures todos != [] && r.Returned? ==> |r.rest| < |lines|
    ensures r.Panicked? ==> r.message == SUBTRACT_OVERFLOW
  {
    if todos == [] then Returned(todos, lines) else DeleteLoop(todos, lines)
  }

  /** Deleting either is cancelled at the position prompt and changes
      nothing, or ends on a "y" and removes one record, the later ones moving
      down one place. */
  lemma DeleteTodoResult(todos: seq<Todo>, lines: seq<string>)
    ensures var r := DeleteTodo(todos, lines);
            todos != [] && r.Returned? ==>
              || (r.value == todos && Trim(LastRead(lines, r.rest)) == CANCEL)
              || (Trim(LastRead(lines, r.rest)) == YES && RemovedOne(todos, r.value))
  {
    DeleteLoopResult(todos, lines);
  }

  /** A position followed by "y" removes that record. */
  lemma DeleteConfirmed(todos: seq<Todo>, i: nat, line: string, answer: string, more: seq<string>)
    requires 1 <= i <= |todos| && i <= 99
    requires Trim(line) == Decimal(i)
    requires Trim(answer) == YES
    ensures DeleteTodo(todos, [line, answer] + more) == Returned(RemoveAt(todos, i - 1), more)
  {
    var rest := [answer] + more;
    assert [line, answer] + more == [line] + rest;
    PromptIndexReads(line, rest, i, |todos|);
    assert rest[0] == answer && rest[1..] == more;
    assert ByteLen(YES) == 1;
    assert Screen(answer, 1, 1) == Accept(YES);
    assert PromptString(rest, 1, 1) == Read(Some(YES), more);
  }

  /** A position followed by any other answer the confirmation prompt takes
      ("n", "Y", the sentinel, ...) deletes nothing and starts over at the
      position prompt, as if neither line had been typed. */
  lemma DeleteRetries(todos: seq<Todo>, i: nat, line: string, answer: string, more: seq<string>)
    requires 1 <= i <= |todos| && i <= 99
    requires Trim(line) == Decimal(i)
    requires !Screen(answer, 1, 1).Rejected() && Trim(answer) != YES
    ensures DeleteTodo(todos, [line, answer] + more) == DeleteTodo(todos, more)
  {
    var rest := [answer] + more;
    assert [line, answer] + more == [line] + rest;
    PromptIndexReads(line, rest, i, |todos|);
    assert rest[0] == answer && rest[1..] == more;
    var confirm := PromptString(rest, 1, 1);
    assert confirm.Read? && confirm.rest == more;
    assert confirm.value.GetOr("") != YES;
  }

  /** Whatever the lines look like, a delete removes the record at the
      position `prompt_index` read when the confirmation read next is "y";
      any other confirmation starts over on the lines after it, and a
      cancelled position leaves the list as it is. */
  lemma DeleteStep(todos: seq<Todo>, lines: seq<string>)
    requires todos != []
    ensures var index := PromptIndex(lines, |todos|);
            && (index.Read? && index.value.None? ==> DeleteTodo(todos, lines) == Returned(todos, index.rest))
            && (index.Read? && index.value == Some(0) && PromptString(index.rest, 1, 1).Read? ==>
                  DeleteTodo(todos, lines) == Panicked(SUBTRACT_OVERFLOW))
            && (index.Read? && index.value.Some? && index.value.value >= 1 ==>
                  var confirm := PromptString(index.rest, 1, 1);
                  && (confirm.Read? && confirm.value == Some(YES) ==>
                        DeleteTodo(todos, lines) == Returned(RemoveAt(todos, index.value.value - 1), confirm.rest))
                  && (confirm.Read? && confirm.value != Some(YES) ==>
                        DeleteTodo(todos, lines) == DeleteTodo(todos, confirm.rest)))
  {
  }

  /** "00" at the position prompt crashes once the confirmation is read. */
  lemma DeleteIndexZeroPanics(todos: seq<Todo>, answer: string, more: seq<string>)
    requires todos != []
    requires !Screen(answer, 1, 1).Rejected()
    ensures DeleteTodo(todos, ["00", answer] + more) == Panicked(SUBTRACT_OVERFLOW)
  {
    var rest := [answer] + more;
    assert ["00", answer] + more == ["00"] + rest;
    DoubleZeroIsIndexZero(rest, |todos|);
    assert rest[0] == answer && rest[1..] == more;
    assert PromptString(rest, 1, 1).Read?;
  }

  lemma DeleteKeepsValid(todos: seq<Todo>, lines: seq<string>)
    requires ValidStore(todos)
    ensures DeleteTodo(todos, lines).Returned? ==> ValidStore(DeleteTodo(todos, lines).value)
  {
    DeleteTodoResult(todos, lines);
    var r := DeleteTodo(todos, lines);
    if r.Returned? && r.value != todos {
      var k: nat :| k < |todos| && r.value == RemoveAt(todos, k);
      RemoveAtKeepsValid(todos, k);
    }
  }

  // ---------------------------------------------------------------------------
  // write_todos_to_file
  // ---------------------------------------------------------------------------

  datatype Format = Json | PlainText

  /** What gets written: the JSON text is produced by a serialisation library
      and is represented by the records it serialises. */
  datatype Content = JsonOf(records: seq<Todo>) | TextOf(text: string)

  datatype FileWrite = FileWrite(path: string, content: Content)

  /** The outcome of `File::create` for each of the two fixed paths: the
      displayed error, if creation fails. */
  datatype FileSystem = FileSystem(jsonCreateError: Option<string>, textCreateError: Option<string>)

  const JSON_PATH: string := "todos.json"
  const TEXT_PATH: string := "todos.txt"
  const EXPORT_CANCELLED: string := "Invalid input, please try again"
  const EXPORT_INVALID: string := "Invalid input"
  const CREATE_FAILED: string := "Failed to create file: "

  /** The format menu of the export: "1" is JSON and "2" is plain text. */
  function SelectFormat(input: string): (f: Option<Format>)
    ensures f == Some(Json) <==> input == "1"
    ensures f == Some(PlainText) <==> input == "2"
    ensures f.None? <==> input != "1" && input != "2"
  {
    if input == "1" then Some(Json) else if input == "2" then Some(PlainText) else None
  }

  function PathOf(format: Format): string {
    match format
    case Json => JSON_PATH
    case PlainText => TEXT_PATH
  }

  function CreateError(fs: FileSystem, format: Format): Option<string> {
    match format
    case Json => fs.jsonCreateError
    case PlainText => fs.textCreateError
  }

  /** `write_todos_to_file`: read a format of one or two bytes and write the
      whole list in it. `WriteTodosToFileResult` states what it returns. */
  function WriteTodosToFile(todos: seq<Todo>, lines: seq<string>, fs: FileSystem): (r: Read<Result<FileWrite>>)
    ensures r.Read? ==> Suffix(r.rest, lines) && |r.rest| < |lines|
  {
    var input := PromptString(lines, 1, 2);
    if input.EndOfInput? then EndOfInput
    else if input.value.None? then Read(Err(EXPORT_CANCELLED), input.rest)
    else
      var format := SelectFormat(input.value.value);
      if format.None? then Read(Err(EXPORT_INVALID), input.rest)
      else if CreateError(fs, format.value).Some? then
        Read(Err(CREATE_FAILED + CreateError(fs, format.value).value), input.rest)
      else
        var content := if format.value == Json then JsonOf(todos) else TextOf(TextFile(todos));
        Read(Ok(FileWrite(PathOf(format.value), content)), input.rest)
  }

  /** The export is decided by the last line read: the sentinel and an
      unknown format are errors, and so is a file that cannot be created;
      otherwise "1" writes the records as JSON to todos.json and "2" writes
      the view's lines to todos.txt. */
  lemma WriteTodosToFileResult(todos: seq<Todo>, lines: seq<string>, fs: FileSystem)
    ensures var r := WriteTodosToFile(todos, lines, fs);
            r.Read? ==>
              var typed := Trim(LastRead(lines, r.rest));
              && (typed == CANCEL ==> r.value == Err(EXPORT_CANCELLED))
              && (typed != CANCEL && SelectFormat(typed).None? ==> r.value == Err(EXPORT_INVALID))
              && (SelectFormat(typed).Some? && CreateError(fs, SelectFormat(typed).value).Some? ==>
                    r.value == Err(CREATE_FAILED + CreateError(fs, SelectFormat(typed).value).value))
              && (SelectFormat(typed) == Some(Json) && fs.jsonCreateError.None? ==>
                    r.value == Ok(FileWrite(JSON_PATH, JsonOf(todos))))
              && (SelectFormat(typed) == Some(PlainText) && fs.textCreateError.None? ==>
                    r.value == Ok(FileWrite(TEXT_PATH, TextOf(TextFile(todos)))))
  {
    PromptStringAnswer(lines, 1, 2);
  }

  /** Exporting the single completed record "Buy milk" / "2%" as plain text
      writes its single line. */
  lemma ExportExample(line: string, more: seq<string>, fs: FileSystem)
    requires Trim(line) == "2" && fs.textCreateError.None?
    ensures WriteTodosToFile([Todo("Buy milk", "2%", true)], [line] + more, fs)
            == Read(Ok(FileWrite(TEXT_PATH, TextOf("1. Buy milk - 2% [x]\n"))), more)
  {
    var lines := [line] + more;
    assert lines[0] == line && lines[1..] == more;
    assert ByteLen("2") == 1;
    assert PromptString(lines, 1, 2) == Read(Some("2"), more);
    TextFileExample();
  }
}

=== FILE: input.dfy ===
/** The two prompt routines of `src/main.rs`: `prompt_string`, which reads
    lines until one is acceptable or is the cancel sentinel "0", and
    `prompt_index`, which reads a one- or two-byte number no greater than a
    bound. */
module Input {
  import opened Wrappers
  import opened Text

  /** The sentinel that cancels any prompt and returns to the menu. */
  const CANCEL: string := "0"

  /** What `prompt_string` decides about one line. */
  datatype Verdict =
    | Cancel
    | Empty         // "Input cannot be empty."
    | TooShort      // "Input must be at least {min_len} characters."
    | TooLong       // "Input must be at most {max_len} characters."
    | Accept(value: string)
  {
    predicate Rejected() {
      Empty? || TooShort? || TooLong?
    }
  }

  /** A text `prompt_string(_, minLen, maxLen)` can return: trimmed, not empty,
      not the sentinel, and of a byte length within the bounds. */
  predicate Acceptable(v: string, minLen: nat, maxLen: nat) {
    Trimmed(v) && v != [] && v != CANCEL && minLen <= ByteLen(v) <= maxLen
  }

  /** One iteration of the `prompt_string` loop on the line just read. The
      checks run in the source's order: sentinel, empty, too short, too long. */
  function Screen(line: string, minLen: nat, maxLen: nat): (v: Verdict)
    ensures v.Cancel? <==> Trim(line) == CANCEL
    ensures v.Accept? <==> Acceptable(Trim(line), minLen, maxLen)
    ensures v.Accept? ==> v.value == Trim(line)
  {
    var input := Trim(line);
    if input == CANCEL then Cancel
    else if input == [] then Empty
    else if ByteLen(input) < minLen then TooShort
    else if ByteLen(input) > maxLen then TooLong
    else Accept(input)
  }

  /** `prompt_string(prompt, minLen, maxLen)`: `Some(text)` for the first
      acceptable line, `None` for the sentinel, skipping rejected lines.
      `PromptStringAnswer` and `PromptStringSkips` state what it returns. */
  function PromptString(lines: seq<string>, minLen: nat, maxLen: nat): (r: Read<Option<string>>)
    ensures r.Read? ==> Suffix(r.rest, lines) && |r.rest| < |lines|
    decreases |lines|
  {
    if lines == [] then EndOfInput
    else
      var verdict := Screen(lines[0], minLen, maxLen);
      if verdict.Cancel? then Read(None, lines[1..])
      else if verdict.Accept? then Read(Some(verdict.value), lines[1..])
      else
        var r := PromptString(lines[1..], minLen, maxLen);
        if r.Read? then SuffixTrans(lines, lines[1..], r.rest); r else r
  }

  /** The answer `prompt_string` returns comes from the last line it read: an
      acceptable text is that line trimmed, and `None` means that line was the
      sentinel. A rejected text is never returned. */
  lemma {:induction false} PromptStringAnswer(lines: seq<string>, minLen: nat, maxLen: nat)
    ensures var r := PromptString(lines, minLen, maxLen);
            && (r.Read? && r.value.Some? ==>
                  Acceptable(r.value.value, minLen, maxLen) && r.value.value == Trim(LastRead(lines, r.rest)))
            && (r.Read? && r.value.None? ==> Trim(LastRead(lines, r.rest)) == CANCEL)
    decreases |lines|
  {
    if lines != [] && Screen(lines[0], minLen, maxLen).Rejected() {
      PromptStringAnswer(lines[1..], minLen, maxLen);
      var r := PromptString(lines[1..], minLen, maxLen);
      if r.Read? {
        SuffixTrans(lines, lines[1..], r.rest);
      }
    }
  }

  /** Every line `prompt_string` reads before its answer was rejected, and it
      runs out of input only if every line was rejected. */
  lemma {:induction false} PromptStringSkips(lines: seq<string>, minLen: nat, maxLen: nat)
    ensures var r := PromptString(lines, minLen, maxLen);
            && (r.Read? ==> forall k :: 0 <= k < |lines| - |r.rest| - 1 ==> Screen(lines[k], minLen, maxLen).Rejected())
            && (r.EndOfInput? ==> forall k :: 0 <= k < |lines| ==> Screen(lines[k], minLen, maxLen).Rejected())
    decreases |lines|
  {
    if lines != [] && Screen(lines[0], minLen, maxLen).Rejected() {
      PromptStringSkips(lines[1..], minLen, maxLen);
      assert forall k :: 1 <= k < |lines| ==> lines[k] == lines[1..][k - 1];
    }
  }

  /** `prompt_index(prompt, maxIndex)`: a text of one or two bytes that parses
      as a `usize` no greater than `maxIndex`. Nothing stops it from being 0:
      "00" and "+0" are not the sentinel and parse to 0. */
  function PromptIndex(lines: seq<string>, maxIndex: nat): (r: Read<Option<nat>>)
    ensures r.Read? ==> Suffix(r.rest, lines) && |r.rest| < |lines|
    ensures r.Read? && r.value.Some? ==> r.value.value <= maxIndex
    decreases |lines|
  {
    var answer := PromptString(lines, 1, 2);
    if answer.EndOfInput? then EndOfInput
    else if answer.value.None? then Read(None, answer.rest)
    else
      var parsed := ParseUsize(answer.value.value);
      if parsed.Some? && parsed.value <= maxIndex then Read(Some(parsed.value), answer.rest)
      else
        var r := PromptIndex(answer.rest, maxIndex);
        if r.Read? then SuffixTrans(lines, answer.rest, r.rest); r else r
  }

  /** The index `prompt_index` returns is what the last line read parses to,
      and is at most 99 since that line has at most two bytes; `None` means
      that line was the sentinel. */
  lemma {:induction false} PromptIndexAnswer(lines: seq<string>, maxIndex: nat)
    ensures var r := PromptIndex(lines, maxIndex);
            && (r.Read? && r.value.Some? ==>
                  r.value.value <= 99 && ParseUsize(Trim(LastRead(lines, r.rest))) == Some(r.value.value))
            && (r.Read? && r.value.None? ==> Trim(LastRead(lines, r.rest)) == CANCEL)
    decreases |lines|
  {
    PromptStringAnswer(lines, 1, 2);
    var answer := PromptString(lines, 1, 2);
    if answer.Read? && answer.value.Some? {
      var parsed := ParseUsize(answer.value.value);
      if parsed.Some? && parsed.value <= maxIndex {
        ParseShort(answer.value.value);
      } else {
        PromptIndexAnswer(answer.rest, maxIndex);
        var r := PromptIndex(answer.rest, maxIndex);
        if r.Read? {
          SuffixTrans(lines, answer.rest, r.rest);
        }
      }
    }
  }

  /** A line the string prompt accepts and that parses within the bound is
      read as that index, in one line. */
  lemma PromptIndexTakes(line: string, more: seq<string>, maxIndex: nat, input: string, i: nat)
    requires Screen(line, 1, 2) == Accept(input)
    requires ParseUsize(input) == Some(i) && i <= maxIndex
    ensures PromptIndex([line] + more, maxIndex) == Read(Some(i), more)
  {
    var lines := [line] + more;
    assert lines[0] == line && lines[1..] == more;
    assert PromptString(lines, 1, 2) == Read(Some(input), more);
  }

  /** A line that trims to the sentinel cancels the index prompt at once. */
  lemma PromptIndexCancels(line: string, more: seq<string>, maxIndex: nat)
    requires Trim(line) == CANCEL
    ensures PromptIndex([line] + more, maxIndex) == Read(None, more)
  {
    var lines := [line] + more;
    assert lines[0] == line && lines[1..] == more;
  }

  /** A line that is not the sentinel and that either fails the string
      prompt's checks or does not parse to an index within the bound is
      skipped: the prompt asks again and reads on from the next line. */
  lemma PromptIndexRetries(line: string, more: seq<string>, maxIndex: nat)
    requires !Screen(line, 1, 2).Cancel?
    requires Screen(line, 1, 2).Accept? ==>
               var parsed := ParseUsize(Screen(line, 1, 2).value);
               parsed.None? || parsed.value > maxIndex
    ensures PromptIndex([line] + more, maxIndex) == PromptIndex(more, maxIndex)
  {
    var lines := [line] + more;
    assert lines[0] == line && lines[1..] == more;
  }

  /** A line holding the decimal numeral of a position 1..99 within the bound
      is read as that position, in one line. */
  lemma PromptIndexReads(line: string, more: seq<string>, i: nat, maxIndex: nat)
    requires 1 <= i <= 99 && i <= maxIndex
    requires Trim(line) == Decimal(i)
    ensures PromptIndex([line] + more, maxIndex) == Read(Some(i), more)
  {
    DecimalZero(i);
    DecimalShort(i);
    ParseDecimal(i);
    assert Screen(line, 1, 2) == Accept(Decimal(i));
    PromptIndexTakes(line, more, maxIndex, Decimal(i), i);
  }

  lemma DoubleZeroScreens()
    ensures Screen("00", 1, 2) == Accept("00")
  {
    var s := "00";
    assert |s| == 2 && s[0] == '0' && s[1] == '0';
    assert Trimmed(s) && s != CANCEL;
    assert Trim(s) == s by {
      assert [] + s + [] == s;
      TrimUnique([], s, []);
    }
    assert ByteLen(s) == 2 by {
      AsciiByteLen(s);
    }
  }

  lemma DoubleZeroParses()
    ensures ParseUsize("00") == Some(0)
  {
    var s := "00";
    assert AllDigits(s);
    assert DecimalValue(s) == 0 by {
      assert s[..1] == "0";
      assert s[..1][..0] == [];
    }
  }

  /** "00" gets through the index prompt as index 0. */
  lemma DoubleZeroIsIndexZero(more: seq<string>, maxIndex: nat)
    ensures PromptIndex(["00"] + more, maxIndex) == Read(Some(0), more)
  {
    DoubleZeroScreens();
    DoubleZeroParses();
    PromptIndexTakes("00", more, maxIndex, "00", 0);
  }
}

=== FILE: menu.dfy ===
/** The menu of `src/main.rs`: `load_options`, the mapping from the typed
    digit to a `Choice`, the dispatch to the handlers and the loop that runs
    until Quit is chosen. */
module Menu {
  import opened Wrappers
  import opened Text
  import opened Store
  import opened Input
  import Handlers

  datatype Choice =
    | AddTodo
    | ViewTodos
    | MarkTodoComplete
    | MarkTodoIncomplete
    | EditTodo
    | DeleteTodo
    | WriteTodosInFile
    | Quit

  /** `load_options`: the menu in the order it is printed, entry `i` shown
      with the number `i + 1`. */
  function LoadOptions(): (options: seq<Choice>)
    ensures |options| == 8
    ensures forall i :: 0 <= i < |options| ==> Number(options[i]) == i + 1
  {
    [AddTodo, ViewTodos, MarkTodoComplete, MarkTodoIncomplete, EditTodo, DeleteTodo, WriteTodosInFile, Quit]
  }

  /** The number a choice is shown with. */
  function Number(c: Choice): nat {
    match c
    case AddTodo => 1
    case ViewTodos => 2
    case MarkTodoComplete => 3
    case MarkTodoIncomplete => 4
    case EditTodo => 5
    case DeleteTodo => 6
    case WriteTodosInFile => 7
    case Quit => 8
  }

  /** The `match input.trim()` of `main`: "1".."8" select an action, anything
      else is rejected and the menu is shown again. */
  function ParseChoice(line: string): (choice: Option<Choice>)
    ensures choice.Some? ==> Trim(line) == Decimal(Number(choice.value))
    ensures choice.None? ==> forall c: Choice :: Trim(line) != Decimal(Number(c))
  {
    var input := Trim(line);
    SingleDigits();
    if input == "1" then Some(AddTodo)
    else if input == "2" then Some(ViewTodos)
    else if input == "3" then Some(MarkTodoComplete)
    else if input == "4" then Some(MarkTodoIncomplete)
    else if input == "5" then Some(EditTodo)
    else if input == "6" then Some(DeleteTodo)
    else if input == "7" then Some(WriteTodosInFile)
    else if input == "8" then Some(Quit)
    else None
  }

  /** The numerals of the menu numbers are their single digits. */
  lemma SingleDigits()
    ensures forall c: Choice :: Decimal(Number(c)) == [DigitChar(Number(c))]
  {
  }

  /** A line selects `c` exactly when, trimmed, it is the number `c` is shown
      with in the printed menu. */
  lemma MenuNumbering(line: string, c: Choice)
    ensures 1 <= Number(c) <= |LoadOptions()| && LoadOptions()[Number(c) - 1] == c
    ensures ParseChoice(line) == Some(c) <==> Trim(line) == Decimal(Number(c))
  {
    assert Decimal(Number(c)) == [DigitChar(Number(c))];
  }

  /** Every entry of the menu is a different action. */
  lemma MenuDistinct()
    ensures forall i, j :: 0 <= i < j < |LoadOptions()| ==> LoadOptions()[i] != LoadOptions()[j]
  {
  }

  /** One recognised menu action. Viewing and exporting only read the list,
      and Quit leaves it as it is (ending the loop is up to `MainLoop`). Only
      marking and deleting can panic. */
  function Dispatch(choice: Choice, todos: seq<Todo>, lines: seq<string>, fs: Handlers.FileSystem): (r: Run<seq<Todo>>)
    ensures r.Returned? ==> Suffix(r.rest, lines)
    ensures choice in {ViewTodos, WriteTodosInFile, Quit} && r.Returned? ==> r.value == todos
    ensures choice !in {MarkTodoComplete, MarkTodoIncomplete, DeleteTodo} ==> !r.Panicked?
    ensures r.Panicked? ==> r.message == Handlers.SUBTRACT_OVERFLOW
  {
    match choice
    case AddTodo => Handlers.AddTodo(todos, lines)
    case ViewTodos => Returned(todos, lines)
    case MarkTodoComplete => Handlers.MarkTodo(todos, true, lines)
    case MarkTodoIncomplete => Handlers.MarkTodo(todos, false, lines)
    case EditTodo => Handlers.EditTodo(todos, lines)
    case DeleteTodo => Handlers.DeleteTodo(todos, lines)
    case WriteTodosInFile =>
      var written := Handlers.WriteTodosToFile(todos, lines, fs);
      if written.EndOfInput? then OutOfInput else Returned(todos, written.rest)
    case Quit => Returned(todos, lines)
  }

  /** Every action keeps the records valid. */
  lemma DispatchKeepsValid(choice: Choice, todos: seq<Todo>, lines: seq<string>, fs: Handlers.FileSystem)
    requires ValidStore(todos)
    ensures Dispatch(choice, todos, lines, fs).Returned? ==> ValidStore(Dispatch(choice, todos, lines, fs).value)
  {
    match choice
    case AddTodo => Handlers.AddKeepsValid(todos, lines);
    case MarkTodoComplete => Handlers.MarkKeepsValid(todos, true, lines);
    case MarkTodoIncomplete => Handlers.MarkKeepsValid(todos, false, lines);
    case EditTodo => Handlers.EditKeepsValid(todos, lines);
    case DeleteTodo => Handlers.DeleteKeepsValid(todos, lines);
    case _ =>
  }

  /** The loop of `main`: read a choice, skip what is not one, stop on Quit,
      otherwise run the action and go round again. */
  function MainLoop(todos: seq<Todo>, lines: seq<string>, fs: Handlers.FileSystem): (r: Run<seq<Todo>>)
    ensures r.Returned? ==> Suffix(r.rest, lines) && |r.rest| < |lines|
    ensures r.Panicked? ==> r.message == Handlers.SUBTRACT_OVERFLOW
    decreases |lines|
  {
    if lines == [] then OutOfInput
    else
      var choice := ParseChoice(lines[0]);
      if choice.None? then
        var r := MainLoop(todos, lines[1..], fs);
        if r.Returned? then SuffixTrans(lines, lines[1..], r.rest); r else r
      else if choice.value == Quit then Returned(todos, lines[1..])
      else
        var step := Dispatch(choice.value, todos, lines[1..], fs);
        if step.Returned? then
          SuffixTrans(lines, lines[1..], step.rest);
          var r := MainLoop(step.value, step.rest, fs);
          if r.Returned? then SuffixTrans(lines, step.rest, r.rest); r else r
        else if step.OutOfInput? then OutOfInput
        else Panicked(step.message)
  }

  /** The loop ends normally only on Quit: the last line it read selects
      Quit. It keeps every record valid. */
  lemma {:induction false} MainLoopResult(todos: seq<Todo>, lines: seq<string>, fs: Handlers.FileSystem)
    ensures var r := MainLoop(todos, lines, fs);
            && (r.Returned? ==> ParseChoice(LastRead(lines, r.rest)) == Some(Quit))
            && (ValidStore(todos) && r.Returned? ==> ValidStore(r.value))
    decreases |lines|
  {
    if lines != [] {
      var choice := ParseChoice(lines[0]);
      if choice.None? {
        MainLoopResult(todos, lines[1..], fs);
        var r := MainLoop(todos, lines[1..], fs);
        if r.Returned? {
          SuffixTrans(lines, lines[1..], r.rest);
        }
      } else if choice.value != Quit {
        if ValidStore(todos) {
          DispatchKeepsValid(choice.value, todos, lines[1..], fs);
        }
        var step := Dispatch(choice.value, todos, lines[1..], fs);
        if step.Returned? {
          SuffixTrans(lines, lines[1..], step.rest);
          MainLoopResult(step.value, step.rest, fs);
          var r := MainLoop(step.value, step.rest, fs);
          if r.Returned? {
            SuffixTrans(lines, step.rest, r.rest);
          }
        }
      }
    }
  }

  /** A line that is not a menu number is skipped. */
  lemma InvalidChoiceSkipped(todos: seq<Todo>, line: string, more: seq<string>, fs: Handlers.FileSystem)
    requires ParseChoice(line).None?
    ensures MainLoop(todos, [line] + more, fs) == MainLoop(todos, more, fs)
  {
    assert ([line] + more)[1..] == more;
  }

  /** "8" ends the loop at once with the list as it is. */
  lemma QuitEnds(todos: seq<Todo>, line: string, more: seq<string>, fs: Handlers.FileSystem)
    requires Trim(line) == "8"
    ensures MainLoop(todos, [line] + more, fs) == Returned(todos, more)
  {
    var lines := [line] + more;
    assert lines[0] == line && lines[1..] == more;
    assert ParseChoice(line) == Some(Quit);
  }

  /** A whole run of the program: the loop started on an empty list. */
  function Session(lines: seq<string>, fs: Handlers.FileSystem): Run<seq<Todo>> {
    MainLoop([], lines, fs)
  }

  /** Every list a run ends with holds only valid records. */
  lemma SessionKeepsValid(lines: seq<string>, fs: Handlers.FileSystem)
    ensures Session(lines, fs).Returned? ==> ValidStore(Session(lines, fs).value)
  {
    MainLoopResult([], lines, fs);
  }

  /** A recognised choice other than Quit runs its action, and the loop goes
      on from the list and the input that action leaves. */
  lemma ChoiceRuns(todos: seq<Todo>, line: string, more: seq<string>, fs: Handlers.FileSystem,
                   c: Choice, after: seq<Todo>, rest: seq<string>)
    requires ParseChoice(line) == Some(c) && c != Quit
    requires Dispatch(c, todos, more, fs) == Returned(after, rest)
    ensures MainLoop(todos, [line] + more, fs) == MainLoop(after, rest, fs)
  {
    var lines := [line] + more;
    assert lines[0] == line && lines[1..] == more;
  }

  lemma ExampleCreates(rest: seq<string>)
    ensures Handlers.CreateTodo(["Buy milk", "2%"] + rest) == Read(Ok(Todo("Buy milk", "2%", false)), rest)
  {
    var title := "Buy milk";
    var description := "2%";
    assert Trimmed(title) && Trimmed(description);
    TrimKeeps(title);
    TrimKeeps(description);
    assert ByteLen(title) == 8 by { AsciiByteLen(title); }
    assert ByteLen(description) == 2 by { AsciiByteLen(description); }
    assert Screen(title, 1, TITLE_MAX) == Accept(title);
    assert Screen(description, 0, DESCRIPTION_MAX) == Accept(description);
    Handlers.CreateTodoReads(title, description, rest);
  }

  lemma ExampleMarks(rest: seq<string>, fs: Handlers.FileSystem)
    ensures Dispatch(MarkTodoComplete, [Todo("Buy milk", "2%", false)], ["1"] + rest, fs)
            == Returned([Todo("Buy milk", "2%", true)], rest)
  {
    TrimKeeps("1");
    assert Decimal(1) == "1";
    Handlers.MarkSets([Todo("Buy milk", "2%", false)], true, 1, "1", rest);
    assert SetCompleted([Todo("Buy milk", "2%", false)], 0, true) == [Todo("Buy milk", "2%", true)];
  }

  lemma ExampleChoices()
    ensures ParseChoice("1") == Some(AddTodo)
    ensures ParseChoice("3") == Some(MarkTodoComplete)
    ensures Trim("8") == "8"
  {
    TrimKeeps("1");
    TrimKeeps("3");
    TrimKeeps("8");
  }

  lemma ExampleFirstRound(rest: seq<string>, fs: Handlers.FileSystem)
    ensures MainLoop([], ["1"] + (["Buy milk", "2%"] + rest), fs) == MainLoop([Todo("Buy milk", "2%", false)], rest, fs)
  {
    ExampleChoices();
    ExampleCreates(rest);
    var more := ["Buy milk", "2%"] + rest;
    assert Dispatch(AddTodo, [], more, fs) == Returned([Todo("Buy milk", "2%", false)], rest);
    ChoiceRuns([], "1", more, fs, AddTodo, [Todo("Buy milk", "2%", false)], rest);
  }

  lemma ExampleSecondRound(rest: seq<string>, fs: Handlers.FileSystem)
    ensures MainLoop([Todo("Buy milk", "2%", false)], ["3", "1", "8"] + rest, fs)
            == Returned([Todo("Buy milk", "2%", true)], rest)
  {
    ExampleChoices();
    Regroup("3", "1", "8", rest);
    var afterChoice := ["1"] + (["8"] + rest);
    ExampleMarks(["8"] + rest, fs);
    ChoiceRuns([Todo("Buy milk", "2%", false)], "3", afterChoice, fs, MarkTodoComplete, [Todo("Buy milk", "2%", true)], ["8"] + rest);
    QuitEnds([Todo("Buy milk", "2%", true)], "8", rest, fs);
  }

  /** Three lines in front of `rest`, taken one at a time. */
  lemma Regroup(a: string, b: string, c: string, rest: seq<string>)
    ensures [a, b, c] + rest == [a] + ([b] + ([c] + rest))
  {
  }

  /** A session that adds "Buy milk" with the description "2%", marks it
      complete and quits. */
  lemma SessionExample(fs: Handlers.FileSystem)
    ensures Session(["1", "Buy milk", "2%", "3", "1", "8"], fs) == Returned([Todo("Buy milk", "2%", true)], [])
  {
    ExampleInput();
    ExampleFirstRound(["3", "1", "8"] + [], fs);
    ExampleSecondRound([], fs);
  }

  lemma ExampleInput()
    ensures ["1", "Buy milk", "2%", "3", "1", "8"] == ["1"] + (["Buy milk", "2%"] + (["3", "1", "8"] + []))
  {
  }
}

=== FILE: render.dfy ===
/** The listing line `"{n}. {title} - {description} [x]"` (or `[ ]` when not
    completed) that `view_todos` prints and the plain-text export writes, and
    the two texts built from it. */
module Render {
  import opened Wrappers
  import opened Text
  import opened Store

  /** What `view_todos` prints for an empty list. */
  const NO_TODOS: string := "No todos found."

  function Checkbox(completed: bool): string {
    if completed then "x" else " "
  }

  /** The line for the record `t` shown at 1-based `position`: the position
      and ". " first, the flag in brackets last, and "title - description"
      between the two. */
  function RenderLine(position: nat, t: Todo): (line: string)
    ensures |Decimal(position)| + 2 <= |line| - 4
    ensures line[|Decimal(position)| + 2 .. |line| - 4] == t.title + " - " + t.description
    ensures line[|line| - 4..] == " [" + Checkbox(t.completed) + "]"
  {
    var middle := t.title + " - " + t.description;
    Between(Decimal(position) + ". ", middle, " [" + Checkbox(t.completed) + "]");
    Decimal(position) + ". " + middle + " [" + Checkbox(t.completed) + "]"
  }

  /** The lines for `todos`, numbered from `first`. */
  function Listing(todos: seq<Todo>, first: nat): seq<string> {
    seq(|todos|, i requires 0 <= i < |todos| => RenderLine(first + i, todos[i]))
  }

  /** The lines `view_todos` prints: a notice for an empty list, otherwise
      one line per record. */
  function ViewTodos(todos: seq<Todo>): (lines: seq<string>)
    ensures todos == [] ==> lines == [NO_TODOS]
    ensures todos != [] ==> |lines| == |todos| && NO_TODOS !in lines
  {
    if todos == [] then [NO_TODOS]
    else
      var lines := Listing(todos, 1);
      assert forall i :: 0 <= i < |lines| ==> lines[i] != NO_TODOS by {
        forall i | 0 <= i < |lines|
          ensures lines[i] != NO_TODOS
        {
          NotTheNotice(i + 1, todos[i]);
        }
      }
      lines
  }

  /** The contents of `todos.txt`: `writeln!` of each record's line, in order.
      It is empty exactly when the list is. */
  function TextFile(todos: seq<Todo>): (text: string)
    ensures text == [] <==> todos == []
  {
    EnumerateLines(todos, 1)
  }

  /** The middle of three concatenated texts, cut back out. */
  lemma Between(front: string, middle: string, back: string)
    ensures front + middle + back == front + (middle + back)
    ensures (front + middle + back)[|front| .. |front| + |middle|] == middle
  {
    var line := front + middle + back;
    assert line[|front| .. |front| + |middle|] == middle by {
      forall k | 0 <= k < |middle|
        ensures line[|front| + k] == middle[k]
      {
      }
    }
  }

  function EnumerateLines(todos: seq<Todo>, first: nat): string
    decreases |todos|
  {
    if todos == [] then "" else RenderLine(first, todos[0]) + "\n" + EnumerateLines(todos[1..], first + 1)
  }

  /** Each line followed by a newline. */
  function JoinLines(lines: seq<string>): string {
    if lines == [] then "" else lines[0] + "\n" + JoinLines(lines[1..])
  }

  // ---------------------------------------------------------------------------
  // Reading a listing line back
  // ---------------------------------------------------------------------------

  /** The number of ASCII digits `s` starts with. */
  function LeadingDigits(s: string): (n: nat)
    ensures n <= |s| && AllDigits(s[..n])
    ensures n == |s| || !IsDigit(s[n])
  {
    if s != [] && IsDigit(s[0]) then
      var n := 1 + LeadingDigits(s[1..]);
      assert s[..n] == [s[0]] + s[1..][..n - 1];
      n
    else 0
  }

  /** The position a listing line starts with: digits followed by ". ". */
  function ReadPosition(line: string): Option<nat> {
    var n := LeadingDigits(line);
    if 0 < n && n + 2 <= |line| && line[n..n + 2] == ". " then Some(DecimalValue(line[..n])) else None
  }

  /** The completion flag a listing line ends with: "[x]" or "[ ]". */
  function ReadCheckbox(line: string): Option<bool> {
    if |line| < 3 then None
    else if line[|line| - 3..] == "[x]" then Some(true)
    else if line[|line| - 3..] == "[ ]" then Some(false)
    else None
  }

  lemma {:induction false} LeadingDigitsOf(d: string, tail: string)
    requires AllDigits(d)
    requires tail != [] && !IsDigit(tail[0])
    ensures LeadingDigits(d + tail) == |d|
    decreases |d|
  {
    var line := d + tail;
    if d != [] {
      assert line[0] == d[0] && IsDigit(line[0]);
      assert line[1..] == d[1..] + tail;
      assert AllDigits(d[1..]) by {
        forall k | 0 <= k < |d[1..]|
          ensures IsDigit(d[1..][k])
        {
          assert d[1..][k] == d[k + 1];
        }
      }
      LeadingDigitsOf(d[1..], tail);
      assert LeadingDigits(line) == 1 + LeadingDigits(line[1..]);
    } else {
      assert line == tail;
    }
  }

  lemma ReadPositionOf(position: nat, rest: string)
    ensures ReadPosition(Decimal(position) + ". " + rest) == Some(position)
  {
    var d := Decimal(position);
    var tail := ". " + rest;
    var line := d + ". " + rest;
    assert line == d + tail;
    LeadingDigitsOf(d, tail);
    assert line[..|d|] == d;
    assert line[|d|..|d| + 2] == ". ";
    DecimalRoundTrip(position);
  }

  lemma ReadCheckboxOf(front: string, completed: bool)
    ensures ReadCheckbox(front + " [" + Checkbox(completed) + "]") == Some(completed)
  {
    var back := " [" + Checkbox(completed) + "]";
    var line := front + back;
    assert |back| == 4;
    assert line[|line| - 3..] == back[1..];
    if completed {
      assert back[1..] == "[x]";
    } else {
      assert back[1..] == "[ ]";
      assert back[1..][1] != "[x]"[1];
    }
  }

  /** A rendered line gives back the position it was rendered at and the
      record's completion flag, whatever the title and description hold. */
  lemma RenderLineReadBack(position: nat, t: Todo)
    ensures ReadPosition(RenderLine(position, t)) == Some(position)
    ensures ReadCheckbox(RenderLine(position, t)) == Some(t.completed)
  {
    var front := Decimal(position) + ". ";
    var middle := t.title + " - " + t.description;
    var back := " [" + Checkbox(t.completed) + "]";
    var line := RenderLine(position, t);
    assert line == front + middle + back;
    Between(front, middle, back);
    ReadPositionOf(position, middle + back);
    ReadCheckboxOf(front + middle, t.completed);
  }

  /** A listing line is never the notice for an empty list: the notice does
      not start with a digit. */
  lemma NotTheNotice(position: nat, t: Todo)
    ensures RenderLine(position, t) != NO_TODOS
  {
    assert RenderLine(position, t)[0] == Decimal(position)[0];
    assert !IsDigit(NO_TODOS[0]);
  }

  /** The view shows every record at its offset plus one, with its flag, in
      store order. */
  lemma ViewPositions(todos: seq<Todo>)
    requires todos != []
    ensures forall i :: 0 <= i < |todos| ==>
              ReadPosition(ViewTodos(todos)[i]) == Some(i + 1)
              && ReadCheckbox(ViewTodos(todos)[i]) == Some(todos[i].completed)
  {
    forall i | 0 <= i < |todos|
      ensures ReadPosition(ViewTodos(todos)[i]) == Some(i + 1)
      ensures ReadCheckbox(ViewTodos(todos)[i]) == Some(todos[i].completed)
    {
      assert ViewTodos(todos)[i] == RenderLine(i + 1, todos[i]);
      RenderLineReadBack(i + 1, todos[i]);
    }
  }

  lemma {:induction false} EnumerateIsListing(todos: seq<Todo>, first: nat)
    ensures EnumerateLines(todos, first) == JoinLines(Listing(todos, first))
    decreases |todos|
  {
    if todos != [] {
      assert Listing(todos, first)[1..] == Listing(todos[1..], first + 1);
      EnumerateIsListing(todos[1..], first + 1);
    }
  }

  /** The plain-text export holds exactly the lines the view prints, each
      ended by a newline (for an empty list the file is empty, while the
      view prints the notice). */
  lemma TextFileMatchesView(todos: seq<Todo>)
    requires todos != []
    ensures TextFile(todos) == JoinLines(ViewTodos(todos))
  {
    EnumerateIsListing(todos, 1);
  }

  /** One completed record "Buy milk" / "2%" is written as a single line. */
  lemma TextFileExample()
    ensures TextFile([Todo("Buy milk", "2%", true)]) == "1. Buy milk - 2% [x]\n"
  {
    var t := Todo("Buy milk", "2%", true);
    TextFileOfOne(t);
    assert Decimal(1) == "1" && Checkbox(true) == "x";
    assert "1" + ". " + "Buy milk" + " - " + "2%" + " [" + "x" + "]" + "\n" == "1. Buy milk - 2% [x]\n";
  }

  /** The text file of a single record, spelled out. */
  lemma TextFileOfOne(t: Todo)
    ensures TextFile([t]) == Decimal(1) + ". " + t.title + " - " + t.description + " [" + Checkbox(t.completed) + "]" + "\n"
  {
    assert EnumerateLines([t][1..], 2) == "";
  }
}

=== FILE: store.dfy ===
/** The `Todo` record and the in-place updates the handlers of `src/main.rs`
    make to the `Vec<Todo>` they share. A position the user types is 1-based;
    the functions here take the 0-based offset `k = index - 1`. */
module Store {
  import opened Text
  import opened Input

  datatype Todo = Todo(title: string, description: string, completed: bool)

  const TITLE_MAX: nat := 50
  const DESCRIPTION_MAX: nat := 250

  /** What `create_todo` can produce: a title `prompt_string(_, 1, 50)`
      accepted, and a description `prompt_string(_, 0, 250)` accepted or
      replaced by "" when that prompt was cancelled. */
  predicate ValidTodo(t: Todo) {
    && Acceptable(t.title, 1, TITLE_MAX)
    && (t.description == [] || Acceptable(t.description, 0, DESCRIPTION_MAX))
  }

  predicate ValidStore(todos: seq<Todo>) {
    forall k :: 0 <= k < |todos| ==> ValidTodo(todos[k])
  }

  /** `todos.push(t)` */
  function Push(todos: seq<Todo>, t: Todo): (r: seq<Todo>)
    ensures |r| == |todos| + 1 && r[..|todos|] == todos && r[|todos|] == t
  {
    todos + [t]
  }

  /** `todos[k].completed = flag` */
  function SetCompleted(todos: seq<Todo>, k: nat, flag: bool): (r: seq<Todo>)
    requires k < |todos|
    ensures |r| == |todos|
    ensures forall j :: 0 <= j < |todos| && j != k ==> r[j] == todos[j]
    ensures r[k].completed == flag
    ensures r[k].title == todos[k].title && r[k].description == todos[k].description
  {
    todos[k := todos[k].(completed := flag)]
  }

  /** `todos[k].title = title; todos[k].description = description` */
  function Overwrite(todos: seq<Todo>, k: nat, title: string, description: string): (r: seq<Todo>)
    requires k < |todos|
    ensures |r| == |todos|
    ensures forall j :: 0 <= j < |todos| && j != k ==> r[j] == todos[j]
    ensures r[k].title == title && r[k].description == description
    ensures r[k].completed == todos[k].completed
  {
    todos[k := todos[k].(title := title, description := description)]
  }

  /** `todos.remove(k)`: the records after `k` move down one place. */
  function RemoveAt(todos: seq<Todo>, k: nat): (r: seq<Todo>)
    requires k < |todos|
    ensures |r| == |todos| - 1
    ensures forall j :: 0 <= j < k ==> r[j] == todos[j]
    ensures forall j :: k <= j < |r| ==> r[j] == todos[j + 1]
  {
    todos[..k] + todos[k + 1..]
  }

  /** Setting a flag and then setting it back restores the list. */
  lemma SetCompletedUndo(todos: seq<Todo>, k: nat, flag: bool)
    requires k < |todos|
    ensures SetCompleted(SetCompleted(todos, k, flag), k, todos[k].completed) == todos
  {
  }

  /** Overwriting a record with its own title and description restores it. */
  lemma OverwriteUndo(todos: seq<Todo>, k: nat, title: string, description: string)
    requires k < |todos|
    ensures Overwrite(Overwrite(todos, k, title, description), k, todos[k].title, todos[k].description) == todos
  {
  }

  /** Putting the removed record back at its place restores the list. */
  lemma RemoveAtUndo(todos: seq<Todo>, k: nat)
    requires k < |todos|
    ensures RemoveAt(todos, k)[..k] + [todos[k]] + RemoveAt(todos, k)[k..] == todos
  {
    var r := RemoveAt(todos, k);
    assert r[..k] == todos[..k];
    assert r[k..] == todos[k + 1..];
    assert todos[..k] + [todos[k]] + todos[k + 1..] == todos;
  }

  /** Removing the record just pushed restores the list. */
  lemma PushUndo(todos: seq<Todo>, t: Todo)
    ensures RemoveAt(Push(todos, t), |todos|) == todos
  {
  }

  lemma SetCompletedKeepsValid(todos: seq<Todo>, k: nat, flag: bool)
    requires k < |todos| && ValidStore(todos)
    ensures ValidStore(SetCompleted(todos, k, flag))
  {
    var r := SetCompleted(todos, k, flag);
    forall j | 0 <= j < |r|
      ensures ValidTodo(r[j])
    {
      assert j != k ==> r[j] == todos[j];
    }
  }

  lemma OverwriteKeepsValid(todos: seq<Todo>, k: nat, title: string, description: string)
    requires k < |todos| && ValidStore(todos)
    requires ValidTodo(Todo(title, description, false))
    ensures ValidStore(Overwrite(todos, k, title, description))
  {
    var r := Overwrite(todos, k, title, description);
    forall j | 0 <= j < |r|
      ensures ValidTodo(r[j])
    {
      assert j != k ==> r[j] == todos[j];
    }
  }

  lemma RemoveAtKeepsValid(todos: seq<Todo>, k: nat)
    requires k < |todos| && ValidStore(todos)
    ensures ValidStore(RemoveAt(todos, k))
  {
    var r := RemoveAt(todos, k);
    forall j | 0 <= j < |r|
      ensures ValidTodo(r[j])
    {
      if j < k {
        assert r[j] == todos[j];
      } else {
        assert r[j] == todos[j + 1];
      }
    }
  }
}

=== FILE: text.dfy ===
/** Text primitives the program relies on: `str::trim` with Rust's notion of
    whitespace, `str::len` (a length in UTF-8 bytes), the `{}` rendering of an
    unsigned number and `str::parse::<usize>`. */
module Text {
  import opened Wrappers

  // ---------------------------------------------------------------------------
  // Whitespace and trimming
  // ---------------------------------------------------------------------------

  /** Rust's `char::is_whitespace`: the characters with the Unicode
      White_Space property. */
  predicate IsWhitespace(c: char) {
    || ('\t' <= c <= '\r')
    || c == ' '
    || c == '\U{85}'
    || c == '\U{A0}'
    || c == '\U{1680}'
    || ('\U{2000}' <= c <= '\U{200A}')
    || c == '\U{2028}'
    || c == '\U{2029}'
    || c == '\U{202F}'
    || c == '\U{205F}'
    || c == '\U{3000}'
  }

  predicate AllWhitespace(s: string) {
    forall k :: 0 <= k < |s| ==> IsWhitespace(s[k])
  }

  /** Neither end of `s` is whitespace. */
  predicate Trimmed(s: string) {
    s == [] || (!IsWhitespace(s[0]) && !IsWhitespace(s[|s| - 1]))
  }

  /** `str::trim_start`: drops the leading whitespace of `s`. */
  function TrimStart(s: string): (r: string)
    ensures |r| <= |s|
    ensures r == [] || !IsWhitespace(r[0])
  {
    if |s| > 0 && IsWhitespace(s[0]) then TrimStart(s[1..]) else s
  }

  /** `str::trim_end`: drops the trailing whitespace of `s`. */
  function TrimEnd(s: string): (r: string)
    ensures |r| <= |s| && (r != [] ==> r[0] == s[0])
    ensures r == [] || !IsWhitespace(r[|r| - 1])
  {
    if |s| > 0 && IsWhitespace(s[|s| - 1]) then TrimEnd(s[..|s| - 1]) else s
  }

  /** `str::trim`. Together with `TrimUnique` its contract determines the
      result on every input: `s` splits into leading whitespace, a trimmed
      core and trailing whitespace, and the core is what is returned. */
  function Trim(s: string): (r: string)
    ensures Trimmed(r)
    ensures |r| <= |s|
  {
    TrimEnd(TrimStart(s))
  }

  lemma {:induction false} TrimStartSkips(lead: string, x: string)
    requires AllWhitespace(lead)
    requires x == [] || !IsWhitespace(x[0])
    ensures TrimStart(lead + x) == x
    decreases |lead|
  {
    if lead != [] {
      assert (lead + x)[1..] == lead[1..] + x;
      TrimStartSkips(lead[1..], x);
    }
  }

  lemma {:induction false} TrimEndSkips(x: string, trail: string)
    requires AllWhitespace(trail)
    requires x == [] || !IsWhitespace(x[|x| - 1])
    ensures TrimEnd(x + trail) == x
    decreases |trail|
  {
    if trail != [] {
      var s := x + trail;
      assert s[..|s| - 1] == x + trail[..|trail| - 1];
      TrimEndSkips(x, trail[..|trail| - 1]);
    } else {
      assert x + trail == x;
    }
  }

  /** Whatever whitespace surrounds a trimmed text, `Trim` recovers exactly
      that text. */
  lemma TrimUnique(lead: string, core: string, trail: string)
    requires AllWhitespace(lead) && AllWhitespace(trail)
    requires Trimmed(core)
    ensures Trim(lead + core + trail) == core
  {
    if core == [] {
      assert lead + core + trail == (lead + trail) + [];
      TrimStartSkips(lead + trail, []);
    } else {
      assert lead + core + trail == lead + (core + trail);
      TrimStartSkips(lead, core + trail);
      TrimEndSkips(core, trail);
    }
  }

  /** A text that is already trimmed is left as it is. */
  lemma TrimKeeps(s: string)
    requires Trimmed(s)
    ensures Trim(s) == s
  {
    assert [] + s + [] == s;
    TrimUnique([], s, []);
  }

  lemma TrimIdempotent(s: string)
    ensures Trim(Trim(s)) == Trim(s)
  {
    TrimKeeps(Trim(s));
  }

  // ---------------------------------------------------------------------------
  // Length in bytes
  // ---------------------------------------------------------------------------

  /** Number of bytes the UTF-8 encoding of `c` takes. */
  function Utf8Width(c: char): (w: nat)
    ensures 1 <= w <= 4
    ensures w == 1 <==> c < '\U{80}'
  {
    if c < '\U{80}' then 1
    else if c < '\U{800}' then 2
    else if c < '\U{10000}' then 3
    else 4
  }

  /** `str::len`: the length of `s` in UTF-8 bytes. */
  function ByteLen(s: string): (n: nat)
    ensures |s| <= n <= 4 * |s|
  {
    if s == [] then 0 else Utf8Width(s[0]) + ByteLen(s[1..])
  }

  predicate IsAscii(s: string) {
    forall k :: 0 <= k < |s| ==> s[k] < '\U{80}'
  }

  /** On ASCII text the byte length is the number of characters. */
  lemma {:induction false} AsciiByteLen(s: string)
    requires IsAscii(s)
    ensures ByteLen(s) == |s|
    decreases |s|
  {
    if s != [] {
      AsciiByteLen(s[1..]);
    }
  }

  // ---------------------------------------------------------------------------
  // Decimal numerals
  // ---------------------------------------------------------------------------

  /** The largest `usize` on a 64-bit target. */
  const USIZE_MAX: nat := 0xFFFF_FFFF_FFFF_FFFF

  predicate IsDigit(c: char) {
    '0' <= c <= '9'
  }

  predicate AllDigits(s: string) {
    forall k :: 0 <= k < |s| ==> IsDigit(s[k])
  }

  function DigitChar(d: nat): (c: char)
    requires d < 10
    ensures IsDigit(c)
  {
    (48 + d) as char
  }

  function DigitValue(c: char): nat
    requires IsDigit(c)
  {
    c as int - 48
  }

  /** The value of a string of decimal digits, most significant first. */
  function DecimalValue(s: string): nat
    requires AllDigits(s)
  {
    if s == [] then 0 else 10 * DecimalValue(s[..|s| - 1]) + DigitValue(s[|s| - 1])
  }

  /** `format!("{}", n)` for an unsigned `n`: the shortest decimal numeral. */
  function Decimal(n: nat): (s: string)
    ensures s != [] && AllDigits(s) && IsAscii(s)
    ensures s[0] == '0' ==> s == "0"
  {
    if n < 10 then [DigitChar(n)] else Decimal(n / 10) + [DigitChar(n % 10)]
  }

  /** Reading a rendered number back gives the number. */
  lemma {:induction false} DecimalRoundTrip(n: nat)
    ensures DecimalValue(Decimal(n)) == n
  {
    if n >= 10 {
      var s := Decimal(n);
      assert s[..|s| - 1] == Decimal(n / 10);
      DecimalRoundTrip(n / 10);
    }
  }

  /** Only zero renders as "0". */
  lemma DecimalZero(n: nat)
    ensures Decimal(n) == "0" <==> n == 0
  {
    if Decimal(n) == "0" {
      DecimalRoundTrip(n);
    }
  }

  /** Numbers below 100 render in at most two digits. */
  lemma DecimalShort(n: nat)
    requires n <= 99
    ensures |Decimal(n)| <= 2 && ByteLen(Decimal(n)) <= 2
  {
    AsciiByteLen(Decimal(n));
  }

  /** At most `k` digits hold a value below 10^k; stated for the one- and
      two-digit inputs the index prompt admits. */
  lemma {:induction false} ShortDecimalBound(s: string)
    requires AllDigits(s) && |s| <= 2
    ensures DecimalValue(s) <= 99
  {
    if s != [] {
      var init := s[..|s| - 1];
      assert |init| <= 1;
      if init != [] {
        assert init[..|init| - 1] == [];
        assert DecimalValue(init) == DigitValue(init[0]) <= 9;
      }
    }
  }

  /** `str::parse::<usize>` (Rust's `from_str_radix` with radix 10): an optional
      `+`, then at least one ASCII digit, and no overflow. */
  function ParseUsize(s: string): (r: Option<nat>)
    ensures r.Some? ==> r.value <= USIZE_MAX
    ensures r.Some? ==> AllDigits(s) || (s[0] == '+' && |s| > 1 && AllDigits(s[1..]))
    ensures s != [] && AllDigits(s) && DecimalValue(s) <= USIZE_MAX ==> r == Some(DecimalValue(s))
  {
    var digits := if |s| > 0 && s[0] == '+' then s[1..] else s;
    if digits == [] || !AllDigits(digits) then None
    else if DecimalValue(digits) <= USIZE_MAX then Some(DecimalValue(digits))
    else None
  }

  /** Parsing accepts every rendered `usize`, with or without a `+` sign. */
  lemma ParseDecimal(n: nat)
    requires n <= USIZE_MAX
    ensures ParseUsize(Decimal(n)) == Some(n)
    ensures ParseUsize("+" + Decimal(n)) == Some(n)
  {
    DecimalRoundTrip(n);
    assert ("+" + Decimal(n))[1..] == Decimal(n);
  }

  /** A text of at most two bytes parses, if at all, to at most 99. */
  lemma ParseShort(s: string)
    requires ByteLen(s) <= 2
    requires ParseUsize(s).Some?
    ensures ParseUsize(s).value <= 99
  {
    var digits := if |s| > 0 && s[0] == '+' then s[1..] else s;
    ShortDecimalBound(digits);
  }
}

=== FILE: wrappers.dfy ===
/** Small result types shared by the model.

    The program reads its input one line at a time from standard input. Here
    every interactive routine receives the lines still to be read as a
    sequence and hands back the lines it left unread, so that a routine that
    loops on bad input becomes a total function of its input. */
module Wrappers {

  /** Rust's `Option`. */
  datatype Option<+T> = None | Some(value: T) {

    /** `unwrap_or_else(|| default)` */
    function GetOr(default: T): T {
      match this
      case Some(v) => v
      case None => default
    }
  }

  /** Rust's `Result<T, String>`. */
  datatype Result<+T> = Ok(value: T) | Err(error: string)

  /** What a prompt routine does with the remaining input: it either returns
      `value` having read up to (not including) `rest`, or the input runs out
      first. On a real terminal the end of input makes `read_line` return an
      empty line, which every prompt rejects, so the program would spin for
      ever; `EndOfInput` stands for that. */
  datatype Read<+T> = Read(value: T, rest: seq<string>) | EndOfInput

  /** What a menu handler, or the menu loop itself, does with the remaining
      input: it returns with the resulting list of records, the input runs out
      first, or the process panics. */
  datatype Run<+T> =
    | Returned(value: T, rest: seq<string>)
    | OutOfInput
    | Panicked(message: string)

  /** `rest` is what is left of `lines` after reading some lines from the front. */
  predicate Suffix(rest: seq<string>, lines: seq<string>) {
    |rest| <= |lines| && lines[|lines| - |rest|..] == rest
  }

  /** The last line read before `rest` was left over. */
  function LastRead(lines: seq<string>, rest: seq<string>): string
    requires Suffix(rest, lines) && |rest| < |lines|
  {
    lines[|lines| - |rest| - 1]
  }

  /** Reading in two stretches is reading in one, and the last line read is
      the one the second stretch ended on. */
  lemma SuffixTrans(lines: seq<string>, mid: seq<string>, rest: seq<string>)
    requires Suffix(mid, lines) && Suffix(rest, mid)
    ensures Suffix(rest, lines)
    ensures |rest| < |mid| ==> LastRead(lines, rest) == LastRead(mid, rest)
  {
    assert lines[|lines| - |rest|..] == lines[|lines| - |mid|..][|mid| - |rest|..];
  }
}
